=== FILE: README.md ===
# Detective case manager: a Dafny model of its case-management core

The application lets detectives register and log in, open cases, file clues
and suspects under them, raise a suspect's evidence score as clues come in,
and mark cases solved. This project models the part of `app.py` that decides
what a request may do and what it writes:

- the database as an immutable `Store` of four maps (`detectives`, `cases`,
  `clues`, `suspects`) from AUTO_INCREMENT keys to rows, with one next-key
  counter per table (`schema.dfy`);
- the schema's constraints as the predicate `Valid`: keys issued by their
  counter, `UNIQUE` usernames, `VARCHAR` widths and the `INT` range, and the
  three foreign keys; `ON DELETE CASCADE` and `ON DELETE SET NULL` as what
  the deletes do;
- the `update_evidence` stored procedure (`Schema.UpdateEvidence`);
- the `owns_case` gate (`gate.dfy`) and the session it reads: an optional
  (detective id, name, admin flag) triple, `None` when nobody is logged in;
- every mutating route as a pure transition of the store (`auth.dfy`,
  `cases.dfy`, `clues.dfy`, `suspects.dfy`). The session-scoped routes (all
  but `register`) return `Step(Store, Outcome)` and sit behind one
  dispatcher (`app.dfy`) where the cross-route properties are proved: the
  login check comes before every write, and the gate before every
  case-scoped write (every route but `add_case`, which lets any logged-in
  detective open a case for any detective); a refused request writes
  nothing, every route keeps `Valid`, and only `solve_case` marks a
  case Solved or a suspect guilty. `register` needs no session; it returns
  `Step(Store, Registration)` and its own lemmas (`Auth.RegisterPreservesValid`,
  `Auth.RegisterTwiceRejected`) cover it;
- start-up: the empty tables plus the default `admin` row, which
  establishes `Valid` (`Auth.BootstrapValid`);
- the string handling the routes apply to form fields (`text.dfy`): Python's
  `str.strip()` over the full set of characters `str.isspace()` accepts,
  lower-casing, and the byte length of the UTF-8 encoding.

Each route is one atomic transition. The tables use the `utf8mb4` character
set, so a `VARCHAR(n)` column holds any n characters. MySQL runs in strict mode: a value too
wide for its `VARCHAR` column or outside the `INT` range makes the statement
fail, the request aborts before `commit()`, and the store is left as it was
(`StorageError`; for registration this is the 'Error creating account.'
branch). bcrypt is kept abstract: the new hash is an input of `Register`,
since it depends on a random salt, and `checkpw` is a function parameter of
`Login`.

The password rule follows the code rather than its message: the check is on
the length of `password.encode('utf-8')`, so two three-byte characters pass
while the message speaks of six characters (`Text.Utf8LengthNonAscii`).

## Model

| member | source | states |
|---|---|---|
| Text.Trim | app.py:145 | `strip()` never lengthens a field, and its result neither starts nor ends with white space |
| Text.TrimIsInfix | app.py:145 | `strip()` yields a slice of the field, and everything outside that slice is white space |
| Text.TrimIdempotent | app.py:145 | stripping a stripped field changes nothing |
| Text.TrimBlank | app.py:145 | a field made only of white space strips to the empty string |
| Text.ToLower | app.py:146 | lower-casing keeps the length and maps each character on its own |
| Text.ToLowerSpec | app.py:146 | lower-cased text has no ASCII capital left, and text without ASCII capitals is unchanged |
| Text.NormalizeUsername | app.py:146 | the normal username has no ASCII capitals and no surrounding white space; under ASCII-only lowering it is no longer than the input |
| Text.NormalizeIdempotent | app.py:124 | a stored (already normal) username normalises to itself, so login finds it again |
| Text.Utf8Length | app.py:147-149 | the UTF-8 byte length of a password lies between its character count and four times that |
| Text.Utf8LengthAscii | app.py:147-149 | an ASCII password is measured in characters: bytes equal characters |
| Text.Utf8LengthNonAscii | app.py:147-149 | a password with any non-ASCII character has more bytes than characters, so fewer than six characters can pass the check |
| Schema.UpdateEvidence | app.py:73-80 | the procedure adds the value to exactly the suspect with that key and leaves every other row and every key as it was; a missing key changes nothing; it fails exactly when an argument or the new score leaves the INT range |
| Schema.DeleteDetective | app.py:40-42 | deleting a detective removes only that row, keeps every other detective and every key counter, sets the owner of exactly the cases it owned to null, and changes nothing else about any case, clue or suspect |
| Schema.DeleteDetectivePreservesValid | app.py:41 | the set-null rule keeps every constraint, in particular no case names a missing owner |
| Gate.GateDeniesMissingCase | app.py:108-114 | the gate refuses any session for a case that does not exist |
| Gate.GateOnExistingCase | app.py:108-115 | for an existing case the gate admits exactly admin sessions and the owning detective |
| Gate.OrphanOnlyAdmin | app.py:115 | a case with a null owner is reachable only by admin |
| Gate.DeletedOwnerLosesAccess | app.py:41 | once the owner's row is deleted, no non-admin session (the former owner's included) passes the gate for its cases |
| Auth.Register | app.py:142-170 | each outcome is tied to its condition: a password under 6 UTF-8 bytes is reported as too short; otherwise an over-long column fails the insert as 'Error creating account.'; otherwise a taken normalised username is reported as taken; and otherwise exactly one detective with stripped name, normalised username and the hash is added under a fresh key; every refusal leaves the store unchanged |
| Auth.RegisterPreservesValid | app.py:149-167 | registration keeps keys fresh, usernames unique and columns within width |
| Auth.RegisterTwiceRejected | app.py:155-165 | after a successful registration, any second registration under the same normalised username is refused and creates no row, and reports 'Username already taken.' whenever its password is long enough and its row fits |
| Auth.SeedAdmin | app.py:83-89 | after start-up some detective is named 'admin'; if one already was, nothing changes; otherwise exactly 'Admin Holmes' with the given hash is added under the next key, that counter advances by one, and no other table or counter changes |
| Auth.SeedAdminPreservesValid | app.py:83-89 | seeding the default admin keeps the schema's constraints |
| Auth.BootstrapValid | app.py:23-89 | start-up on a fresh database yields a store satisfying the invariant every route preserves, with the admin as the only detective |
| Auth.FindByUsername | app.py:127-130 | the lookup returns a detective with exactly that username, or none when no detective has it |
| Auth.NoOtherMatch | app.py:128-132 | if the lookup finds nobody, or finds a detective whose hash rejects the password, no detective at all authenticates, because usernames are unique |
| Auth.Login | app.py:121-139 | when some detective has the normalised username and a hash that accepts the password, the session becomes that detective's, admin exactly when the normalised username is "admin"; otherwise the session is left as it was |
| Auth.RegisterEnablesLogin | app.py:124-136 | right after registering, logging in with the same normalised username and a password the hash accepts succeeds, and reaches only the new detective |
| Cases.AddCase | app.py:212-228 | with a session, exactly one Open case with stripped fields, owned by the chosen detective or else the session's, is added under a fresh key; a too-long title or a nonexistent owner writes nothing; no gate is consulted |
| Cases.AddCasePreservesValid | app.py:219-224 | adding a case keeps every constraint, including the owner foreign key |
| Cases.EditCase | app.py:261-282 | a refused gate writes nothing; otherwise only that case's title, description and owner change, its status stays, and a too-long title or nonexistent owner writes nothing |
| Cases.EditCasePreservesValid | app.py:274-278 | editing a case keeps every constraint |
| Cases.SolveCase | app.py:424-445 | a refused gate writes nothing; otherwise that case becomes Solved and the named suspect, from any case, becomes guilty, every other case and suspect is unchanged, and the easter egg holds exactly when the session's detective owns at least 3 Solved cases afterwards |
| Cases.SolveCasePreservesValid | app.py:433-434 | solving keeps every constraint |
| Cases.SolveCountStep | app.py:437-442 | the session detective's solved set gains the case exactly when it is theirs, and its size grows by one exactly when the case was theirs and not yet Solved |
| Cases.EasterEggOnThirdSolve | app.py:445 | solving one's own third unsolved case reports the easter egg |
| Cases.NoEasterEggBeforeThird | app.py:445 | with at most one solved case before, a solve reports no easter egg |
| Cases.EasterEggStays | app.py:445 | with three or more solved cases before, every solve reports the easter egg |
| Cases.DeleteCase | app.py:451-460 | a refused gate writes nothing; otherwise the case is removed together with exactly the clues and suspects filed under it, and every other row is kept |
| Cases.DeleteCasePreservesValid | app.py:46-67 | the cascade keeps every foreign key intact |
| Cases.DeleteCaseCascades | app.py:457 | after a permitted delete neither the case nor any clue or suspect filed under it remains |
| Clues.AddClue | app.py:295-314 | a refused gate writes nothing; otherwise exactly one clue is filed under the case, every suspect's score rises by the impact when it is the chosen suspect and the impact is positive and by nothing otherwise, and an out-of-range score aborts the whole request |
| Clues.AddCluePreservesValid | app.py:305-310 | adding a clue keeps every constraint, scores within the INT range included |
| Clues.AddClueLeavesScores | app.py:309 | with no suspect chosen, an impact that is not positive, or a suspect key that matches no row, no score changes |
| Clues.AddClueRaisesOne | app.py:309-310 | a committed clue with an existing suspect and positive impact raises that suspect's score by exactly the impact and leaves every other suspect unchanged |
| Clues.EditClue | app.py:326-348 | a missing clue or a refused gate writes nothing; otherwise only that clue's description changes |
| Clues.EditCluePreservesValid | app.py:343-344 | editing a clue keeps every constraint |
| Clues.DeleteClue | app.py:463-474 | a missing clue or a refused gate writes nothing; otherwise exactly that clue is removed |
| Clues.DeleteCluePreservesValid | app.py:470 | deleting a clue keeps every constraint |
| Suspects.AddSuspect | app.py:357-377 | a refused gate writes nothing; otherwise exactly one suspect, not guilty, with stripped fields and the given score (0 when absent) is filed under the case, unless a column overflows |
| Suspects.AddSuspectPreservesValid | app.py:370-373 | adding a suspect keeps every constraint |
| Suspects.EditSuspect | app.py:386-415 | a missing suspect or a refused gate writes nothing; otherwise only that suspect's name, score and remarks change, its case and guilt flag stay |
| Suspects.EditSuspectPreservesValid | app.py:407-411 | editing a suspect keeps every constraint |
| Suspects.DeleteSuspect | app.py:477-488 | a missing suspect or a refused gate writes nothing; otherwise exactly that suspect is removed |
| Suspects.DeleteSuspectPreservesValid | app.py:484 | deleting a suspect keeps every constraint |
| App.LoginRequiredChangesNothing | app.py:98-105 | without a session every route behind `login_required` redirects to login and writes nothing |
| App.DenialChangesNothing | app.py:261-488 | every case-scoped route the gate refuses reports denial and leaves the whole store unchanged |
| App.MutationImpliesGate | app.py:108-115 | every case-scoped route that changes the store was called by a logged-in session the gate admits for its target case |
| App.HandlePreservesValid | app.py:23-67 | every route in the dispatcher keeps the store within the schema's constraints; `register`'s part is `Auth.RegisterPreservesValid` |
| App.OnlySolveConvicts | app.py:434 | only `solve_case` sets a suspect guilty, and only the suspect it names |
| App.OnlySolveSolves | app.py:433 | only `solve_case` moves a case to Solved, and only the case it names |
| App.SolvedIsFinal | app.py:261-282 | no route moves an existing Solved case back out of Solved |

## Left out

- HTTP plumbing: request parsing, `int()` conversion errors (including an
  empty impact or score field), a missing `guilty_suspect` field, flash
  messages, redirects, templates and JSON rendering. Handlers return an
  `Outcome` tag instead.
- GET renderings of the forms and the read-only routes `case_detail` and
  `dashboard` (its `LIKE` filter depends on a collation that is not part of
  this model), `reports` (SQL aggregation with a floating-point average) and
  `logout`, which only clears the session.
- The `CREATE TABLE` statements and the database connection; the tables
  they create are `Auth.EmptyStore`, their constraints `Valid`, and the
  default-admin insert is `Auth.SeedAdmin`. The default password is kept
  only as its hash, an input like every bcrypt result.
- bcrypt: hashing and `checkpw` are abstract, including bcrypt's own limit
  on password length.
- Timestamps (`created_at`, `date_added`): they depend on the clock.
- Concurrency: the gate check and the write are not one transaction in the
  source; here each route is one atomic step.
- Text.ToLower: lower-cases ASCII letters only, weaker than Python's
  `str.lower()`, which also maps other scripts.
- Text.ToLowerSpec: "capital" means an ASCII capital; Python's `lower()`
  also changes non-ASCII capitals such as 'É', which this lemma treats as
  already lower-case.
- Text.NormalizeUsername: lowering is ASCII-only, so the length bound and
  the absence of capitals are facts about the model; Python's `lower()` can
  lengthen a username ('İ' becomes two characters), so a username that fits
  the 50-character column here may not fit it in the source and would be
  refused there with 'Error creating account.'.
- Schema.DetectiveFits: widths are counted in characters and every character
  is accepted, which holds for `utf8mb4` tables; under `latin1` or `utf8mb3`
  the source would refuse a name such as '李' or an emoji, which this model
  stores (the same holds for `CaseFits` and `SuspectFits`).
- Schema.UniqueUsernames: compares usernames exactly; the database collation
  (which may equate accented and plain letters) is not part of this model.
- Auth.FindByUsername: the lookup `WHERE username=%s` compares exactly here;
  under an accent-insensitive collation the source would find the `admin`
  row for 'ádmin', while the model finds nobody. `Auth.Login` inherits this.
- Auth.SeedAdmin: the source's `WHERE username='admin'` check is subject to
  the same collation; here it is an exact comparison.
- Schema.Store: a failed INSERT does not advance the next-key counter here,
  while InnoDB may burn the key; only freshness of keys is modelled. Key
  exhaustion at the top of the INT range and the byte limit of `TEXT`
  columns are not modelled either.
- The clue and suspect `case_id` columns are nullable in the schema, but no
  route writes null there, so the model keeps them as plain keys.

=== FILE: app.dfy ===
/** The session-scoped routes behind one dispatcher, and the properties that
    hold across all of them: the login check comes before every write, the
    gate before every case-scoped write (every route but `add_case`, which
    lets any logged-in detective open a case for any detective), and every
    route keeps the store within the schema. */
module App {
  import opened Wrappers
  import opened Schema
  import opened Gate
  import Cases
  import Clues
  import Suspects

  /** A POST to one of the mutating routes, with its form fields. */
  datatype Request =
    | AddCase(title: string, description: string, assignee: Option<int>)
    | EditCase(caseId: int, title: string, description: string, assignee: Option<int>)
    | AddClue(caseId: int, clueText: string, impact: Option<int>, suspect: Option<int>)
    | EditClue(clueId: int, clueText: string)
    | DeleteClue(clueId: int)
    | AddSuspect(caseId: int, name: string, score: Option<int>, remarks: string)
    | EditSuspect(suspectId: int, name: string, score: Option<int>, remarks: string)
    | DeleteSuspect(suspectId: int)
    | SolveCase(caseId: int, guilty: int)
    | DeleteCase(caseId: int)

  function Handle(s: Store, sess: Option<Session>, req: Request): Step<Outcome>
  {
    match req
    case AddCase(t, d, a) => Cases.AddCase(s, sess, t, d, a)
    case EditCase(c, t, d, a) => Cases.EditCase(s, sess, c, t, d, a)
    case AddClue(c, d, i, x) => Clues.AddClue(s, sess, c, d, i, x)
    case EditClue(k, d) => Clues.EditClue(s, sess, k, d)
    case DeleteClue(k) => Clues.DeleteClue(s, sess, k)
    case AddSuspect(c, n, sc, rm) => Suspects.AddSuspect(s, sess, c, n, sc, rm)
    case EditSuspect(k, n, sc, rm) => Suspects.EditSuspect(s, sess, k, n, sc, rm)
    case DeleteSuspect(k) => Suspects.DeleteSuspect(s, sess, k)
    case SolveCase(c, g) => Cases.SolveCase(s, sess, c, g)
    case DeleteCase(c) => Cases.DeleteCase(s, sess, c)
  }

  /** The case a request acts on, as the handler finds it before writing:
      given directly, or the case the clue or suspect is filed under. `None`
      for `add_case`, which has no gate, and for a missing clue or suspect. */
  function TargetCase(s: Store, req: Request): Option<int>
  {
    match req
    case AddCase(_, _, _) => None
    case EditCase(c, _, _, _) => Some(c)
    case AddClue(c, _, _, _) => Some(c)
    case EditClue(k, _) => if k in s.clues then Some(s.clues[k].caseId) else None
    case DeleteClue(k) => if k in s.clues then Some(s.clues[k].caseId) else None
    case AddSuspect(c, _, _, _) => Some(c)
    case EditSuspect(k, _, _, _) => if k in s.suspects then Some(s.suspects[k].caseId) else None
    case DeleteSuspect(k) => if k in s.suspects then Some(s.suspects[k].caseId) else None
    case SolveCase(c, _) => Some(c)
    case DeleteCase(c) => Some(c)
  }

  /** The session passes the gate for the request's target case. */
  predicate Admitted(s: Store, sess: Session, req: Request)
  {
    TargetCase(s, req).Some? && OwnsCase(s, sess, TargetCase(s, req).value)
  }

  /** Without a session every route redirects to login and writes nothing. */
  lemma LoginRequiredChangesNothing(s: Store, req: Request)
    ensures Handle(s, None, req) == Step(s, LoginRequired)
  {
  }

  /** A case-scoped request the gate refuses is answered 'Access denied.' or
      `{success: False}` and leaves the whole store as it was. */
  lemma DenialChangesNothing(s: Store, sess: Session, req: Request)
    requires !req.AddCase?
    requires !Admitted(s, sess, req)
    ensures Handle(s, Some(sess), req) == Step(s, AccessDenied)
  {
  }

  /** Conversely, a case-scoped request that changes the store came from a
      session the gate admits for its target case, as the store stood before. */
  lemma MutationImpliesGate(s: Store, sess: Option<Session>, req: Request)
    requires !req.AddCase?
    requires Handle(s, sess, req).store != s
    ensures sess.Some? && Admitted(s, sess.value, req)
  {
  }

  /** Every route keeps the store within the schema: fresh keys, unique
      usernames, columns within their widths and ranges, and no row naming a
      missing parent. */
  lemma HandlePreservesValid(s: Store, sess: Option<Session>, req: Request)
    requires Valid(s)
    ensures Valid(Handle(s, sess, req).store)
  {
    match req
    case AddCase(t, d, a) => Cases.AddCasePreservesValid(s, sess, t, d, a);
    case EditCase(c, t, d, a) => Cases.EditCasePreservesValid(s, sess, c, t, d, a);
    case AddClue(c, d, i, x) => Clues.AddCluePreservesValid(s, sess, c, d, i, x);
    case EditClue(k, d) => Clues.EditCluePreservesValid(s, sess, k, d);
    case DeleteClue(k) => Clues.DeleteCluePreservesValid(s, sess, k);
    case AddSuspect(c, n, sc, rm) => Suspects.AddSuspectPreservesValid(s, sess, c, n, sc, rm);
    case EditSuspect(k, n, sc, rm) => Suspects.EditSuspectPreservesValid(s, sess, k, n, sc, rm);
    case DeleteSuspect(k) => Suspects.DeleteSuspectPreservesValid(s, sess, k);
    case SolveCase(c, g) => Cases.SolveCasePreservesValid(s, sess, c, g);
    case DeleteCase(c) => Cases.DeleteCasePreservesValid(s, sess, c);
  }

  /** Only `solve_case` marks a suspect guilty, and only the one it names. */
  lemma OnlySolveConvicts(s: Store, sess: Option<Session>, req: Request, k: int)
    requires k in s.suspects && !s.suspects[k].guilty
    requires k in Handle(s, sess, req).store.suspects && Handle(s, sess, req).store.suspects[k].guilty
    ensures req.SolveCase? && req.guilty == k
  {
  }

  /** Only `solve_case` moves a case to Solved, and only the case it names. */
  lemma OnlySolveSolves(s: Store, sess: Option<Session>, req: Request, c: int)
    requires c in s.cases && s.cases[c].status != Solved
    requires c in Handle(s, sess, req).store.cases && Handle(s, sess, req).store.cases[c].status == Solved
    ensures req.SolveCase? && req.caseId == c
  {
  }

  /** No route takes a case out of Solved while it exists. */
  lemma SolvedIsFinal(s: Store, sess: Option<Session>, req: Request, c: int)
    requires Valid(s)
    requires c in s.cases && s.cases[c].status == Solved
    requires c in Handle(s, sess, req).store.cases
    ensures Handle(s, sess, req).store.cases[c].status == Solved
  {
  }
}

=== FILE: auth.dfy ===
/** Registration and login. The bcrypt hash of a new password arrives as a
    parameter (it depends on a random salt) and `bcrypt.checkpw` is an
    arbitrary function parameter, so nothing here depends on how either is
    computed. */
module Auth {
  import opened Wrappers
  import opened Text
  import opened Schema
  import opened Gate

  /** The shortest password accepted, in bytes of its UTF-8 encoding. */
  const MinPasswordBytes: nat := 6

  /** The username that makes a session admin. */
  const AdminUsername: string := "admin"

  datatype Registration =
    | Registered(id: int)    // 'Account created'
    | PasswordTooShort       // 'Password must be at least 6 characters.'
    | DuplicateUsername      // the UNIQUE key rejected the insert: 'Username already taken.'
    | CreationFailed         // any other insert error: 'Error creating account.'

  /** The row `register` inserts. */
  function NewDetective(name: string, username: string, hashed: string): Detective
  {
    Detective(Trim(name), NormalizeUsername(username), hashed)
  }

  /** `POST /register`. The password's byte length is checked first; then the
      INSERT either fails on an over-long column, fails on the UNIQUE
      username, or adds exactly one detective under a fresh key. */
  function Register(s: Store, name: string, username: string, password: string, hashed: string): (r: Step<Registration>)
    ensures Utf8Length(password) < MinPasswordBytes ==> r == Step(s, PasswordTooShort)
    ensures r.outcome.Registered? <==>
      && Utf8Length(password) >= MinPasswordBytes
      && DetectiveFits(NewDetective(name, username, hashed))
      && !UsernameTaken(s.detectives, NormalizeUsername(username))
    ensures r.outcome == PasswordTooShort <==> Utf8Length(password) < MinPasswordBytes
    ensures r.outcome == CreationFailed <==>
      Utf8Length(password) >= MinPasswordBytes && !DetectiveFits(NewDetective(name, username, hashed))
    ensures r.outcome == DuplicateUsername <==>
      && Utf8Length(password) >= MinPasswordBytes
      && DetectiveFits(NewDetective(name, username, hashed))
      && UsernameTaken(s.detectives, NormalizeUsername(username))
    ensures !r.outcome.Registered? ==> r.store == s
    ensures r.outcome.Registered? ==>
      && r.outcome.id == s.nextDetective
      && r.store.detectives.Keys == s.detectives.Keys + {r.outcome.id}
      && r.store.detectives[r.outcome.id] == NewDetective(name, username, hashed)
      && (forall k :: k in s.detectives && k != r.outcome.id ==> r.store.detectives[k] == s.detectives[k])
      && r.store.nextDetective == s.nextDetective + 1
      && r.store.(detectives := s.detectives, nextDetective := s.nextDetective) == s
  {
    var row := NewDetective(name, username, hashed);
    if Utf8Length(password) < MinPasswordBytes then Step(s, PasswordTooShort)
    else if !DetectiveFits(row) then Step(s, CreationFailed)
    else if UsernameTaken(s.detectives, row.username) then Step(s, DuplicateUsername)
    else
      var id := s.nextDetective;
      Step(s.(detectives := s.detectives[id := row], nextDetective := id + 1), Registered(id))
  }

  /** A successful registration keeps the store within the schema; in
      particular the new key is fresh and usernames stay unique. */
  lemma RegisterPreservesValid(s: Store, name: string, username: string, password: string, hashed: string)
    requires Valid(s)
    ensures Valid(Register(s, name, username, password, hashed).store)
  {
  }

  /** Registering the same normalised username twice never creates a second
      row: the second attempt changes nothing, and when its password is long
      enough and its row fits it reports 'Username already taken.'. */
  lemma RegisterTwiceRejected(s: Store, name: string, username: string, password: string, hashed: string,
                              name': string, username': string, password': string, hashed': string)
    requires Register(s, name, username, password, hashed).outcome.Registered?
    requires NormalizeUsername(username') == NormalizeUsername(username)
    ensures var t := Register(s, name, username, password, hashed).store;
      && !Register(t, name', username', password', hashed').outcome.Registered?
      && Register(t, name', username', password', hashed').store == t
      && (Utf8Length(password') >= MinPasswordBytes && DetectiveFits(NewDetective(name', username', hashed'))
          ==> Register(t, name', username', password', hashed').outcome == DuplicateUsername)
  {
  }

  /** The tables as `CREATE TABLE IF NOT EXISTS` leaves a fresh database. */
  const EmptyStore: Store := Store(map[], map[], map[], map[], 1, 1, 1, 1)

  /** The default-admin step of start-up: when no detective is named
      'admin', insert 'Admin Holmes' with the bcrypt hash `hashed` of the
      default password; otherwise leave the store alone. */
  function SeedAdmin(s: Store, hashed: string): (r: Store)
    ensures UsernameTaken(r.detectives, AdminUsername)
    ensures UsernameTaken(s.detectives, AdminUsername) ==> r == s
    ensures !UsernameTaken(s.detectives, AdminUsername) ==>
      && Stored(s.detectives, r.detectives, s.nextDetective, Detective("Admin Holmes", AdminUsername, hashed))
      && r.nextDetective == s.nextDetective + 1
      && r.(detectives := s.detectives, nextDetective := s.nextDetective) == s
  {
    if UsernameTaken(s.detectives, AdminUsername) then s
    else
      var id := s.nextDetective;
      var ds := s.detectives[id := Detective("Admin Holmes", AdminUsername, hashed)];
      assert id in ds && ds[id].username == AdminUsername;
      s.(detectives := ds, nextDetective := id + 1)
  }

  /** Seeding the admin keeps the schema's constraints; a bcrypt hash is 60
      characters, well within the password column. */
  lemma SeedAdminPreservesValid(s: Store, hashed: string)
    requires Valid(s)
    requires |hashed| <= PasswordWidth
    ensures Valid(SeedAdmin(s, hashed))
  {
  }

  /** Start-up on a fresh database establishes the invariant every route
      preserves, with the admin as the only detective. */
  lemma BootstrapValid(hashed: string)
    requires |hashed| <= PasswordWidth
    ensures Valid(SeedAdmin(EmptyStore, hashed))
    ensures SeedAdmin(EmptyStore, hashed).detectives.Keys == {1}
  {
    SeedAdminPreservesValid(EmptyStore, hashed);
  }

  /** `bcrypt.checkpw(password, hash)` accepted for some detective whose
      username is the normalised `username`. */
  ghost predicate Authenticates(s: Store, username: string, password: string, checkpw: (string, string) -> bool)
  {
    exists id :: id in s.detectives && s.detectives[id].username == NormalizeUsername(username)
      && checkpw(password, s.detectives[id].password)
  }

  /** `SELECT * FROM detectives WHERE username=%s`: a scan of the keys the
      table has issued, giving the key of a detective with username `u`, or
      `None` when there is none. */
  method FindByUsername(s: Store, u: string) returns (r: Option<int>)
    requires forall id :: id in s.detectives ==> 1 <= id < s.nextDetective
    ensures r.Some? ==> r.value in s.detectives && s.detectives[r.value].username == u
    ensures r.None? ==> !UsernameTaken(s.detectives, u)
  {
    var id := 1;
    while id < s.nextDetective
      invariant 1 <= id
      invariant forall k :: k in s.detectives && k < id ==> s.detectives[k].username != u
    {
      if id in s.detectives && s.detectives[id].username == u {
        return Some(id);
      }
      id := id + 1;
    }
    return None;
  }

  /** When the lookup found no detective, or found one whose hash rejects the
      password, no detective authenticates: usernames are unique. */
  lemma NoOtherMatch(s: Store, username: string, password: string, checkpw: (string, string) -> bool,
                     user: Option<int>)
    requires UniqueUsernames(s.detectives)
    requires user.Some? ==> user.value in s.detectives && s.detectives[user.value].username == NormalizeUsername(username)
    requires user.None? ==> !UsernameTaken(s.detectives, NormalizeUsername(username))
    requires user.Some? ==> !checkpw(password, s.detectives[user.value].password)
    ensures !Authenticates(s, username, password, checkpw)
  {
    if user.None? {
      assert forall id :: id in s.detectives ==> s.detectives[id].username != NormalizeUsername(username);
    } else {
      assert forall id :: id in s.detectives && s.detectives[id].username == NormalizeUsername(username) ==> id == user.value;
    }
  }

  /** `POST /`: a matching username and password replaces the session with
      that detective's, admin exactly when the normalised username is
      "admin"; otherwise the session stays as it was. */
  method Login(s: Store, prior: Option<Session>, username: string, password: string,
               checkpw: (string, string) -> bool) returns (sess: Option<Session>)
    requires Valid(s)
    ensures !Authenticates(s, username, password, checkpw) ==> sess == prior
    ensures Authenticates(s, username, password, checkpw) ==>
      && sess.Some?
      && sess.value.detective in s.detectives
      && s.detectives[sess.value.detective].username == NormalizeUsername(username)
      && checkpw(password, s.detectives[sess.value.detective].password)
      && sess.value.name == s.detectives[sess.value.detective].name
      && (sess.value.isAdmin <==> NormalizeUsername(username) == AdminUsername)
  {
    var u := NormalizeUsername(username);
    var user := FindByUsername(s, u);
    if user.Some? && checkpw(password, s.detectives[user.value].password) {
      var d := s.detectives[user.value];
      return Some(Session(user.value, d.name, u == AdminUsername));
    }
    NoOtherMatch(s, username, password, checkpw, user);
    return prior;
  }

  /** Right after a successful registration, logging in with the same
      username and a password the hash accepts succeeds, and the new
      detective is the only one that username can reach. */
  lemma RegisterEnablesLogin(s: Store, name: string, username: string, password: string, hashed: string,
                             login: string, checkpw: (string, string) -> bool)
    requires Valid(s)
    requires Register(s, name, username, password, hashed).outcome.Registered?
    requires NormalizeUsername(login) == NormalizeUsername(username)
    requires checkpw(password, hashed)
    ensures var r := Register(s, name, username, password, hashed);
      && Authenticates(r.store, login, password, checkpw)
      && forall id :: id in r.store.detectives && r.store.detectives[id].username == NormalizeUsername(login) ==> id == r.outcome.id
  {
  }

}

=== FILE: cases.dfy ===
/** The case routes: `add_case`, `edit_case`, `solve_case` and `delete_case`. */
module Cases {
  import opened Wrappers
  import opened Text
  import opened Schema
  import opened Gate

  /** The owner a case form assigns: the chosen detective, or the session's
      own when the field is empty. */
  function Assignee(sess: Session, assignee: Option<int>): int
  {
    assignee.GetOr(sess.detective)
  }

  /** The row `add_case` inserts. */
  function NewCase(sess: Session, title: string, description: string, assignee: Option<int>): Case
  {
    Case(Trim(title), Trim(description), Open, Some(Assignee(sess, assignee)))
  }

  /** `POST /case/add`. No gate: any logged-in detective may open a case for
      any detective. The foreign key rejects an assignee that does not exist. */
  function AddCase(s: Store, sess: Option<Session>, title: string, description: string, assignee: Option<int>): (r: Step<Outcome>)
    ensures sess.None? ==> r == Step(s, LoginRequired)
    ensures r.outcome == Done <==>
      sess.Some? && CaseFits(NewCase(sess.value, title, description, assignee))
      && Assignee(sess.value, assignee) in s.detectives
    ensures r.outcome != Done ==> r.store == s
    ensures r.outcome == Done ==>
      && Stored(s.cases, r.store.cases, s.nextCase, NewCase(sess.value, title, description, assignee))
      && r.store.cases[s.nextCase].status == Open
      && r.store.nextCase == s.nextCase + 1
      && r.store.(cases := s.cases, nextCase := s.nextCase) == s
  {
    if sess.None? then Step(s, LoginRequired)
    else
      var row := NewCase(sess.value, title, description, assignee);
      if !CaseFits(row) || row.owner.value !in s.detectives then Step(s, StorageError)
      else
        var id := s.nextCase;
        Step(s.(cases := s.cases[id := row], nextCase := id + 1), Done)
  }

  lemma AddCasePreservesValid(s: Store, sess: Option<Session>, title: string, description: string, assignee: Option<int>)
    requires Valid(s)
    ensures Valid(AddCase(s, sess, title, description, assignee).store)
  {
  }

  /** `POST /case/<id>/edit`: after the gate, replaces title, description and
      owner; the status is left as it was. */
  function EditCase(s: Store, sess: Option<Session>, caseId: int, title: string, description: string,
                    assignee: Option<int>): (r: Step<Outcome>)
    ensures sess.None? ==> r == Step(s, LoginRequired)
    ensures sess.Some? && !OwnsCase(s, sess.value, caseId) ==> r == Step(s, AccessDenied)
    ensures r.outcome == Done <==>
      && sess.Some? && OwnsCase(s, sess.value, caseId)
      && |Trim(title)| <= TitleWidth && Assignee(sess.value, assignee) in s.detectives
    ensures r.outcome != Done ==> r.store == s
    ensures r.outcome == Done ==>
      && r.store.cases.Keys == s.cases.Keys
      && (forall k :: k in s.cases && k != caseId ==> r.store.cases[k] == s.cases[k])
      && r.store.cases[caseId].title == Trim(title)
      && r.store.cases[caseId].description == Trim(description)
      && r.store.cases[caseId].owner == Some(Assignee(sess.value, assignee))
      && r.store.cases[caseId].status == s.cases[caseId].status
      && r.store.(cases := s.cases) == s
  {
    if sess.None? then Step(s, LoginRequired)
    else if !OwnsCase(s, sess.value, caseId) then Step(s, AccessDenied)
    else
      var row := s.cases[caseId].(title := Trim(title), description := Trim(description),
                                  owner := Some(Assignee(sess.value, assignee)));
      if !CaseFits(row) || row.owner.value !in s.detectives then Step(s, StorageError)
      else Step(s.(cases := s.cases[caseId := row]), Done)
  }

  lemma EditCasePreservesValid(s: Store, sess: Option<Session>, caseId: int, title: string, description: string,
                               assignee: Option<int>)
    requires Valid(s)
    ensures Valid(EditCase(s, sess, caseId, title, description, assignee).store)
  {
  }

  /** `POST /case/<id>/solve`: after the gate, marks the case Solved and the
      chosen suspect guilty, whichever case that suspect is filed under; no
      other suspect's flag is cleared. The easter egg reports whether the
      session's detective now owns at least three Solved cases. */
  function SolveCase(s: Store, sess: Option<Session>, caseId: int, guilty: int): (r: Step<Outcome>)
    ensures sess.None? ==> r == Step(s, LoginRequired)
    ensures sess.Some? && !OwnsCase(s, sess.value, caseId) ==> r == Step(s, AccessDenied)
    ensures r.outcome.SolvedCase? <==> sess.Some? && OwnsCase(s, sess.value, caseId)
    ensures !r.outcome.SolvedCase? ==> r.store == s
    ensures r.outcome.SolvedCase? ==>
      && r.store.cases.Keys == s.cases.Keys
      && r.store.cases[caseId] == s.cases[caseId].(status := Solved)
      && (forall k :: k in s.cases && k != caseId ==> r.store.cases[k] == s.cases[k])
      && r.store.suspects.Keys == s.suspects.Keys
      && (guilty in s.suspects ==> r.store.suspects[guilty] == s.suspects[guilty].(guilty := true))
      && (forall k :: k in s.suspects && k != guilty ==> r.store.suspects[k] == s.suspects[k])
      && r.store.(cases := s.cases, suspects := s.suspects) == s
      && (r.outcome.easterEgg <==> |SolvedBy(r.store, sess.value.detective)| >= 3)
  {
    if sess.None? then Step(s, LoginRequired)
    else if !OwnsCase(s, sess.value, caseId) then Step(s, AccessDenied)
    else
      var cases := s.cases[caseId := s.cases[caseId].(status := Solved)];
      var suspects :=
        if guilty in s.suspects then s.suspects[guilty := s.suspects[guilty].(guilty := true)] else s.suspects;
      var t := s.(cases := cases, suspects := suspects);
      Step(t, SolvedCase(|SolvedBy(t, sess.value.detective)| >= 3))
  }

  lemma SolveCasePreservesValid(s: Store, sess: Option<Session>, caseId: int, guilty: int)
    requires Valid(s)
    ensures Valid(SolveCase(s, sess, caseId, guilty).store)
  {
  }

  /** Solving adds the case to the session detective's solved set exactly
      when that detective owns it; the count grows by one exactly when the
      case was theirs and not yet Solved. */
  lemma SolveCountStep(s: Store, sess: Session, caseId: int, guilty: int)
    requires OwnsCase(s, sess, caseId)
    ensures var t := SolveCase(s, Some(sess), caseId, guilty).store;
      var mine := s.cases[caseId].owner == Some(sess.detective);
      && SolvedBy(t, sess.detective) == SolvedBy(s, sess.detective) + (if mine then {caseId} else {})
      && |SolvedBy(t, sess.detective)| ==
           |SolvedBy(s, sess.detective)| + (if mine && s.cases[caseId].status != Solved then 1 else 0)
  {
    var t := SolveCase(s, Some(sess), caseId, guilty).store;
    var d := sess.detective;
    var mine := s.cases[caseId].owner == Some(d);
    var before, after := SolvedBy(s, d), SolvedBy(t, d);
    assert after == before + (if mine then {caseId} else {});
    if mine && s.cases[caseId].status != Solved {
      assert caseId !in before;
    } else {
      assert after == before;
    }
  }

  /** A detective's third solved case of their own brings the easter egg. */
  lemma EasterEggOnThirdSolve(s: Store, sess: Session, caseId: int, guilty: int)
    requires OwnsCase(s, sess, caseId)
    requires s.cases[caseId].owner == Some(sess.detective) && s.cases[caseId].status != Solved
    requires |SolvedBy(s, sess.detective)| == 2
    ensures SolveCase(s, Some(sess), caseId, guilty).outcome == SolvedCase(true)
  {
    SolveCountStep(s, sess, caseId, guilty);
  }

  /** With at most one solved case before, a solve cannot bring the egg. */
  lemma NoEasterEggBeforeThird(s: Store, sess: Session, caseId: int, guilty: int)
    requires OwnsCase(s, sess, caseId)
    requires |SolvedBy(s, sess.detective)| <= 1
    ensures SolveCase(s, Some(sess), caseId, guilty).outcome == SolvedCase(false)
  {
    SolveCountStep(s, sess, caseId, guilty);
  }

  /** Once a detective owns three solved cases, every solve they make
      reports the egg. */
  lemma EasterEggStays(s: Store, sess: Session, caseId: int, guilty: int)
    requires OwnsCase(s, sess, caseId)
    requires |SolvedBy(s, sess.detective)| >= 3
    ensures SolveCase(s, Some(sess), caseId, guilty).outcome == SolvedCase(true)
  {
    SolveCountStep(s, sess, caseId, guilty);
  }

  /** `POST /case/<id>/delete`: after the gate, deletes the case; `ON DELETE
      CASCADE` takes its clues and suspects with it. */
  function DeleteCase(s: Store, sess: Option<Session>, caseId: int): (r: Step<Outcome>)
    ensures sess.None? ==> r == Step(s, LoginRequired)
    ensures sess.Some? && !OwnsCase(s, sess.value, caseId) ==> r == Step(s, AccessDenied)
    ensures r.outcome == Done <==> sess.Some? && OwnsCase(s, sess.value, caseId)
    ensures r.outcome != Done ==> r.store == s
    ensures r.outcome == Done ==>
      && Removed(s.cases, r.store.cases, {caseId})
      && Removed(s.clues, r.store.clues, CluesOf(s, caseId))
      && Removed(s.suspects, r.store.suspects, SuspectsOf(s, caseId))
      && r.store.(cases := s.cases, clues := s.clues, suspects := s.suspects) == s
  {
    if sess.None? then Step(s, LoginRequired)
    else if !OwnsCase(s, sess.value, caseId) then Step(s, AccessDenied)
    else
      var clues := map k | k in s.clues && s.clues[k].caseId != caseId :: s.clues[k];
      var suspects := map k | k in s.suspects && s.suspects[k].caseId != caseId :: s.suspects[k];
      Step(s.(cases := s.cases - {caseId}, clues := clues, suspects := suspects), Done)
  }

  lemma DeleteCasePreservesValid(s: Store, sess: Option<Session>, caseId: int)
    requires Valid(s)
    ensures Valid(DeleteCase(s, sess, caseId).store)
  {
  }

  /** After a permitted delete neither the case nor any clue or suspect
      filed under it is left. */
  lemma DeleteCaseCascades(s: Store, sess: Option<Session>, caseId: int)
    requires DeleteCase(s, sess, caseId).outcome == Done
    ensures var t := DeleteCase(s, sess, caseId).store;
      && caseId !in t.cases
      && CluesOf(t, caseId) == {}
      && SuspectsOf(t, caseId) == {}
  {
  }
}

=== FILE: clues.dfy ===
/** The clue routes: `add_clue` (with the evidence update), `edit_clue` and
    `delete_clue`. */
module Clues {
  import opened Wrappers
  import opened Text
  import opened Schema
  import opened Gate

  /** The impact field, 0 when the form leaves it out. */
  function Impact(impact: Option<int>): int
  {
    impact.GetOr(0)
  }

  /** `add_clue` calls `update_evidence` only when a suspect is chosen and the
      impact is positive. */
  predicate RaisesEvidence(suspect: Option<int>, impact: Option<int>)
  {
    suspect.Some? && Impact(impact) > 0
  }

  /** The amount by which `add_clue` raises the score of suspect `k`. */
  function Raise(suspect: Option<int>, impact: Option<int>, k: int): int
  {
    if RaisesEvidence(suspect, impact) && suspect.value == k then Impact(impact) else 0
  }

  /** The evidence update fails: an argument or the new score is outside the
      INT range. */
  predicate EvidenceOverflows(s: Store, suspect: Option<int>, impact: Option<int>)
  {
    && RaisesEvidence(suspect, impact)
    && (|| !InIntRange(suspect.value) || !InIntRange(Impact(impact))
        || (suspect.value in s.suspects && !InIntRange(s.suspects[suspect.value].score + Impact(impact))))
  }

  /** `POST /case/<id>/clue/add`: after the gate, files one new clue under
      the case and raises the chosen suspect's score by the impact. The
      suspect need not belong to the case, and a missing one matches no row. */
  function AddClue(s: Store, sess: Option<Session>, caseId: int, description: string,
                   impact: Option<int>, suspect: Option<int>): (r: Step<Outcome>)
    ensures sess.None? ==> r == Step(s, LoginRequired)
    ensures sess.Some? && !OwnsCase(s, sess.value, caseId) ==> r == Step(s, AccessDenied)
    ensures r.outcome == Done <==>
      sess.Some? && OwnsCase(s, sess.value, caseId) && !EvidenceOverflows(s, suspect, impact)
    ensures r.outcome != Done ==> r.store == s
    ensures r.outcome == Done ==>
      && Stored(s.clues, r.store.clues, s.nextClue, Clue(caseId, Trim(description)))
      && r.store.nextClue == s.nextClue + 1
      && r.store.suspects.Keys == s.suspects.Keys
      && (forall k :: k in s.suspects ==>
            r.store.suspects[k] == s.suspects[k].(score := s.suspects[k].score + Raise(suspect, impact, k)))
      && r.store.(clues := s.clues, nextClue := s.nextClue, suspects := s.suspects) == s
  {
    if sess.None? then Step(s, LoginRequired)
    else if !OwnsCase(s, sess.value, caseId) then Step(s, AccessDenied)
    else
      var id := s.nextClue;
      var t := s.(clues := s.clues[id := Clue(caseId, Trim(description))], nextClue := id + 1);
      if RaisesEvidence(suspect, impact) then
        match UpdateEvidence(s.suspects, suspect.value, Impact(impact))
        case None => Step(s, StorageError)
        case Some(suspects) => Step(t.(suspects := suspects), Done)
      else Step(t, Done)
  }

  lemma AddCluePreservesValid(s: Store, sess: Option<Session>, caseId: int, description: string,
                              impact: Option<int>, suspect: Option<int>)
    requires Valid(s)
    ensures Valid(AddClue(s, sess, caseId, description, impact, suspect).store)
  {
    var r := AddClue(s, sess, caseId, description, impact, suspect);
    if r.outcome == Done {
      forall k | k in r.store.suspects
        ensures SuspectFits(r.store.suspects[k])
      {
        assert InIntRange(s.suspects[k].score + Raise(suspect, impact, k));
      }
    }
  }

  /** Without a chosen suspect, with an impact that is not positive, or with a
      suspect key that matches no row, adding a clue changes no score. */
  lemma AddClueLeavesScores(s: Store, sess: Option<Session>, caseId: int, description: string,
                            impact: Option<int>, suspect: Option<int>)
    requires suspect.None? || Impact(impact) <= 0 || suspect.value !in s.suspects
    ensures AddClue(s, sess, caseId, description, impact, suspect).store.suspects == s.suspects
  {
  }

  /** With a chosen existing suspect and a positive impact, a committed
      clue raises that suspect's score by exactly the impact, keeps its guilt
      flag, and leaves every other suspect as it was. */
  lemma AddClueRaisesOne(s: Store, sess: Option<Session>, caseId: int, description: string,
                         impact: int, suspect: int)
    requires AddClue(s, sess, caseId, description, Some(impact), Some(suspect)).outcome == Done
    requires suspect in s.suspects && impact > 0
    ensures var t := AddClue(s, sess, caseId, description, Some(impact), Some(suspect)).store;
      && t.suspects[suspect].score == s.suspects[suspect].score + impact
      && t.suspects[suspect].guilty == s.suspects[suspect].guilty
      && forall k :: k in s.suspects && k != suspect ==> t.suspects[k] == s.suspects[k]
  {
  }

  /** `POST /clue/<id>/edit`: a missing clue or a clue whose case the gate
      refuses is denied; otherwise only its description changes. */
  function EditClue(s: Store, sess: Option<Session>, clueId: int, description: string): (r: Step<Outcome>)
    ensures sess.None? ==> r == Step(s, LoginRequired)
    ensures r.outcome == Done <==>
      sess.Some? && clueId in s.clues && OwnsCase(s, sess.value, s.clues[clueId].caseId)
    ensures r.outcome != Done ==> r.store == s
    ensures r.outcome == Done ==>
      && r.store.clues.Keys == s.clues.Keys
      && r.store.clues[clueId] == s.clues[clueId].(description := Trim(description))
      && (forall k :: k in s.clues && k != clueId ==> r.store.clues[k] == s.clues[k])
      && r.store.(clues := s.clues) == s
  {
    if sess.None? then Step(s, LoginRequired)
    else if clueId !in s.clues || !OwnsCase(s, sess.value, s.clues[clueId].caseId) then Step(s, AccessDenied)
    else Step(s.(clues := s.clues[clueId := s.clues[clueId].(description := Trim(description))]), Done)
  }

  lemma EditCluePreservesValid(s: Store, sess: Option<Session>, clueId: int, description: string)
    requires Valid(s)
    ensures Valid(EditClue(s, sess, clueId, description).store)
  {
  }

  /** `POST /clue/<id>/delete`: `{success: False}` with no change for a
      missing clue or a refused gate; otherwise exactly that clue goes. */
  function DeleteClue(s: Store, sess: Option<Session>, clueId: int): (r: Step<Outcome>)
    ensures sess.None? ==> r == Step(s, LoginRequired)
    ensures r.outcome == Done <==>
      sess.Some? && clueId in s.clues && OwnsCase(s, sess.value, s.clues[clueId].caseId)
    ensures r.outcome != Done ==> r.store == s
    ensures r.outcome == Done ==>
      && Removed(s.clues, r.store.clues, {clueId})
      && r.store.(clues := s.clues) == s
  {
    if sess.None? then Step(s, LoginRequired)
    else if clueId in s.clues && OwnsCase(s, sess.value, s.clues[clueId].caseId) then
      Step(s.(clues := s.clues - {clueId}), Done)
    else Step(s, AccessDenied)
  }

  lemma DeleteCluePreservesValid(s: Store, sess: Option<Session>, clueId: int)
    requires Valid(s)
    ensures Valid(DeleteClue(s, sess, clueId).store)
  {
  }
}

=== FILE: gate.dfy ===
/** The session, the outcome a handler reports, and `owns_case`, the access
    gate every case-scoped handler consults before it writes. */
module Gate {
  import opened Wrappers
  import opened Schema

  /** What login stores in the Flask session. */
  datatype Session = Session(detective: int, name: string, isAdmin: bool)

  /** The visible result of a handler, without the HTTP rendering. */
  datatype Outcome =
    | LoginRequired            // `login_required` redirected to the login page
    | AccessDenied             // 'Access denied.' or `{success: False}`
    | Done                     // the handler committed its writes
    | SolvedCase(easterEgg: bool)  // `{success: True, easter_egg: ...}`
    | StorageError             // a constraint rejected a statement; nothing was committed

  /** A handler's next store together with what it reported. */
  datatype Step<+O> = Step(store: Store, outcome: O)

  /** `owns_case(case_id)`: a missing case is denied; an existing one is
      permitted to an admin session and to the detective that owns it. */
  predicate OwnsCase(s: Store, sess: Session, caseId: int)
  {
    caseId in s.cases && (sess.isAdmin || s.cases[caseId].owner == Some(sess.detective))
  }

  /** The gate never admits a request for a case that does not exist. */
  lemma GateDeniesMissingCase(s: Store, sess: Session, caseId: int)
    requires caseId !in s.cases
    ensures !OwnsCase(s, sess, caseId)
  {
  }

  /** Over an existing case the gate admits exactly admins and the owner. */
  lemma GateOnExistingCase(s: Store, sess: Session, caseId: int)
    requires caseId in s.cases
    ensures OwnsCase(s, sess, caseId) <==> sess.isAdmin || s.cases[caseId].owner == Some(sess.detective)
  {
  }

  /** A case whose owner is null is reachable by admin sessions only. */
  lemma OrphanOnlyAdmin(s: Store, sess: Session, caseId: int)
    requires caseId in s.cases && s.cases[caseId].owner.None?
    ensures OwnsCase(s, sess, caseId) <==> sess.isAdmin
  {
  }

  /** Once its owner's row is deleted, a case is closed to every session
      that is not admin, including the former owner's. */
  lemma DeletedOwnerLosesAccess(s: Store, d: int, sess: Session, caseId: int)
    requires caseId in s.cases && s.cases[caseId].owner == Some(d)
    requires !sess.isAdmin
    ensures !OwnsCase(DeleteDetective(s, d), sess, caseId)
  {
  }
}

=== FILE: schema.dfy ===
/** The four tables of the case-management database as an immutable store,
    the column constraints the schema declares, and the `update_evidence`
    stored procedure. Each table is a map from its AUTO_INCREMENT key to its
    row; each table has its own next-key counter. */
module Schema {
  import opened Wrappers

  datatype Status = Open | UnderInvestigation | Solved

  /** A `detectives` row; `password` holds the bcrypt hash. */
  datatype Detective = Detective(name: string, username: string, password: string)

  /** A `cases` row; `owner` is the nullable `detective_id`. */
  datatype Case = Case(title: string, description: string, status: Status, owner: Option<int>)

  /** A `clues` row. */
  datatype Clue = Clue(caseId: int, description: string)

  /** A `suspects` row. */
  datatype Suspect = Suspect(caseId: int, name: string, score: int, remarks: string, guilty: bool)

  datatype Store = Store(
    detectives: map<int, Detective>,
    cases: map<int, Case>,
    clues: map<int, Clue>,
    suspects: map<int, Suspect>,
    nextDetective: int,
    nextCase: int,
    nextClue: int,
    nextSuspect: int)

  /** The range of a MySQL `INT` column or parameter. */
  const IntMin: int := -0x8000_0000
  const IntMax: int := 0x7FFF_FFFF

  predicate InIntRange(x: int)
  {
    IntMin <= x <= IntMax
  }

  /** The `VARCHAR` widths, in characters. */
  const DetectiveNameWidth: nat := 100
  const UsernameWidth: nat := 50
  const PasswordWidth: nat := 255
  const TitleWidth: nat := 100
  const SuspectNameWidth: nat := 100
  const RemarksWidth: nat := 255

  /** A detective row fits its columns, so a strict-mode INSERT accepts it. */
  predicate DetectiveFits(d: Detective)
  {
    |d.name| <= DetectiveNameWidth && |d.username| <= UsernameWidth && |d.password| <= PasswordWidth
  }

  predicate CaseFits(c: Case)
  {
    |c.title| <= TitleWidth
  }

  predicate SuspectFits(x: Suspect)
  {
    |x.name| <= SuspectNameWidth && |x.remarks| <= RemarksWidth && InIntRange(x.score)
  }

  /** Every key was handed out by its table's counter, which starts at 1. */
  ghost predicate KeysIssued(s: Store)
  {
    && 1 <= s.nextDetective && 1 <= s.nextCase && 1 <= s.nextClue && 1 <= s.nextSuspect
    && (forall id :: id in s.detectives ==> 1 <= id < s.nextDetective)
    && (forall id :: id in s.cases ==> 1 <= id < s.nextCase)
    && (forall id :: id in s.clues ==> 1 <= id < s.nextClue)
    && (forall id :: id in s.suspects ==> 1 <= id < s.nextSuspect)
  }

  /** `username VARCHAR(50) UNIQUE`. */
  ghost predicate UniqueUsernames(ds: map<int, Detective>)
  {
    forall a, b :: a in ds && b in ds && ds[a].username == ds[b].username ==> a == b
  }

  ghost predicate RowsFit(s: Store)
  {
    && (forall id :: id in s.detectives ==> DetectiveFits(s.detectives[id]))
    && (forall id :: id in s.cases ==> CaseFits(s.cases[id]))
    && (forall id :: id in s.suspects ==> SuspectFits(s.suspects[id]))
  }

  /** The three foreign keys: a case's owner, if any, is a detective; every
      clue and every suspect belongs to an existing case. */
  ghost predicate Referential(s: Store)
  {
    && (forall id :: id in s.cases && s.cases[id].owner.Some? ==> s.cases[id].owner.value in s.detectives)
    && (forall id :: id in s.clues ==> s.clues[id].caseId in s.cases)
    && (forall id :: id in s.suspects ==> s.suspects[id].caseId in s.cases)
  }

  /** The states the schema admits. */
  ghost predicate Valid(s: Store)
  {
    KeysIssued(s) && UniqueUsernames(s.detectives) && RowsFit(s) && Referential(s)
  }

  /** `m2` is `m` with row `v` stored under key `id` and every other row kept. */
  ghost predicate Stored<V>(m: map<int, V>, m2: map<int, V>, id: int, v: V)
  {
    && m2.Keys == m.Keys + {id}
    && id in m2 && m2[id] == v
    && forall k :: k in m && k != id ==> m2[k] == m[k]
  }

  /** `m2` is `m` without the rows whose keys are in `gone`. */
  ghost predicate Removed<V>(m: map<int, V>, m2: map<int, V>, gone: set<int>)
  {
    && m2.Keys == m.Keys - gone
    && forall k :: k in m2 ==> m2[k] == m[k]
  }

  /** The keys of the clues filed under case `caseId`. */
  function CluesOf(s: Store, caseId: int): set<int>
  {
    set k | k in s.clues && s.clues[k].caseId == caseId
  }

  /** The keys of the suspects filed under case `caseId`. */
  function SuspectsOf(s: Store, caseId: int): set<int>
  {
    set k | k in s.suspects && s.suspects[k].caseId == caseId
  }

  /** Some detective already has username `u`. */
  predicate UsernameTaken(ds: map<int, Detective>, u: string)
  {
    exists id :: id in ds && ds[id].username == u
  }

  /** `CALL update_evidence(id, value)`: adds `value` to the score of the
      suspect with key `id`; no row matches a missing key. `None` is the
      statement error strict mode raises when an argument or the new score
      leaves the INT range. */
  function UpdateEvidence(suspects: map<int, Suspect>, id: int, value: int): (r: Option<map<int, Suspect>>)
    ensures r.None? <==>
      !InIntRange(id) || !InIntRange(value) || (id in suspects && !InIntRange(suspects[id].score + value))
    ensures r.Some? ==> r.value.Keys == suspects.Keys
    ensures r.Some? ==> forall k :: k in suspects ==>
      r.value[k] == if k == id then suspects[k].(score := suspects[k].score + value) else suspects[k]
  {
    if !InIntRange(id) || !InIntRange(value) then None
    else if id !in suspects then Some(suspects)
    else
      var x := suspects[id];
      if InIntRange(x.score + value) then Some(suspects[id := x.(score := x.score + value)]) else None
  }

  /** Deleting a detective row: `ON DELETE SET NULL` orphans the cases it
      owned. No route deletes detectives; this is the schema's rule alone. */
  function DeleteDetective(s: Store, d: int): (t: Store)
    ensures t.detectives.Keys == s.detectives.Keys - {d}
    ensures forall k :: k in t.detectives ==> t.detectives[k] == s.detectives[k]
    ensures t.cases.Keys == s.cases.Keys
    ensures forall id :: id in s.cases ==>
      && t.cases[id].owner == (if s.cases[id].owner == Some(d) then None else s.cases[id].owner)
      && t.cases[id].title == s.cases[id].title
      && t.cases[id].description == s.cases[id].description
      && t.cases[id].status == s.cases[id].status
    ensures t.clues == s.clues && t.suspects == s.suspects
    ensures t.(detectives := s.detectives, cases := s.cases) == s
  {
    var cases := map id | id in s.cases ::
      if s.cases[id].owner == Some(d) then s.cases[id].(owner := None) else s.cases[id];
    s.(detectives := s.detectives - {d}, cases := cases)
  }

  /** The set-null rule keeps every foreign key intact. */
  lemma DeleteDetectivePreservesValid(s: Store, d: int)
    requires Valid(s)
    ensures Valid(DeleteDetective(s, d))
  {
  }

  /** The cases a detective owns that are marked Solved: the rows
      `SELECT COUNT(*) FROM cases WHERE status='Solved' AND detective_id=d`
      counts. */
  function SolvedBy(s: Store, d: int): set<int>
  {
    set id | id in s.cases && s.cases[id].status == Solved && s.cases[id].owner == Some(d)
  }
}

=== FILE: suspects.dfy ===
/** The suspect routes: `add_suspect`, `edit_suspect` and `delete_suspect`. */
module Suspects {
  import opened Wrappers
  import opened Text
  import opened Schema
  import opened Gate

  /** The evidence-score field, 0 when the form leaves it out. */
  function Score(score: Option<int>): int
  {
    score.GetOr(0)
  }

  /** The row `add_suspect` inserts: not guilty. */
  function NewSuspect(caseId: int, name: string, score: Option<int>, remarks: string): Suspect
  {
    Suspect(caseId, Trim(name), Score(score), Trim(remarks), false)
  }

  /** `POST /case/<id>/suspect/add`: after the gate, files one new suspect,
      not guilty, under the case; an over-long column or an out-of-range
      score aborts the insert. */
  function AddSuspect(s: Store, sess: Option<Session>, caseId: int, name: string, score: Option<int>,
                      remarks: string): (r: Step<Outcome>)
    ensures sess.None? ==> r == Step(s, LoginRequired)
    ensures sess.Some? && !OwnsCase(s, sess.value, caseId) ==> r == Step(s, AccessDenied)
    ensures r.outcome == Done <==>
      sess.Some? && OwnsCase(s, sess.value, caseId) && SuspectFits(NewSuspect(caseId, name, score, remarks))
    ensures r.outcome != Done ==> r.store == s
    ensures r.outcome == Done ==>
      && Stored(s.suspects, r.store.suspects, s.nextSuspect, NewSuspect(caseId, name, score, remarks))
      && !r.store.suspects[s.nextSuspect].guilty
      && r.store.nextSuspect == s.nextSuspect + 1
      && r.store.(suspects := s.suspects, nextSuspect := s.nextSuspect) == s
  {
    if sess.None? then Step(s, LoginRequired)
    else if !OwnsCase(s, sess.value, caseId) then Step(s, AccessDenied)
    else
      var row := NewSuspect(caseId, name, score, remarks);
      if !SuspectFits(row) then Step(s, StorageError)
      else
        var id := s.nextSuspect;
        Step(s.(suspects := s.suspects[id := row], nextSuspect := id + 1), Done)
  }

  lemma AddSuspectPreservesValid(s: Store, sess: Option<Session>, caseId: int, name: string,
                                 score: Option<int>, remarks: string)
    requires Valid(s)
    ensures Valid(AddSuspect(s, sess, caseId, name, score, remarks).store)
  {
  }

  /** `POST /suspect/<id>/edit`: a missing suspect or one whose case the gate
      refuses is denied; otherwise name, score and remarks are replaced and
      the case and guilt flag kept. */
  function EditSuspect(s: Store, sess: Option<Session>, suspectId: int, name: string, score: Option<int>,
                       remarks: string): (r: Step<Outcome>)
    ensures sess.None? ==> r == Step(s, LoginRequired)
    ensures sess.Some? && (suspectId !in s.suspects || !OwnsCase(s, sess.value, s.suspects[suspectId].caseId))
      ==> r == Step(s, AccessDenied)
    ensures r.outcome == Done <==>
      && sess.Some? && suspectId in s.suspects && OwnsCase(s, sess.value, s.suspects[suspectId].caseId)
      && SuspectFits(NewSuspect(s.suspects[suspectId].caseId, name, score, remarks))
    ensures r.outcome != Done ==> r.store == s
    ensures r.outcome == Done ==>
      var before := s.suspects[suspectId];
      && r.store.suspects.Keys == s.suspects.Keys
      && r.store.suspects[suspectId] == Suspect(before.caseId, Trim(name), Score(score), Trim(remarks), before.guilty)
      && (forall k :: k in s.suspects && k != suspectId ==> r.store.suspects[k] == s.suspects[k])
      && r.store.(suspects := s.suspects) == s
  {
    if sess.None? then Step(s, LoginRequired)
    else if suspectId !in s.suspects || !OwnsCase(s, sess.value, s.suspects[suspectId].caseId) then
      Step(s, AccessDenied)
    else
      var row := s.suspects[suspectId].(name := Trim(name), score := Score(score), remarks := Trim(remarks));
      if !SuspectFits(row) then Step(s, StorageError)
      else Step(s.(suspects := s.suspects[suspectId := row]), Done)
  }

  lemma EditSuspectPreservesValid(s: Store, sess: Option<Session>, suspectId: int, name: string,
                                  score: Option<int>, remarks: string)
    requires Valid(s)
    ensures Valid(EditSuspect(s, sess, suspectId, name, score, remarks).store)
  {
  }

  /** `POST /suspect/<id>/delete`: `{success: False}` with no change for a
      missing suspect or a refused gate; otherwise exactly that suspect goes. */
  function DeleteSuspect(s: Store, sess: Option<Session>, suspectId: int): (r: Step<Outcome>)
    ensures sess.None? ==> r == Step(s, LoginRequired)
    ensures r.outcome == Done <==>
      sess.Some? && suspectId in s.suspects && OwnsCase(s, sess.value, s.suspects[suspectId].caseId)
    ensures r.outcome != Done ==> r.store == s
    ensures r.outcome == Done ==>
      && Removed(s.suspects, r.store.suspects, {suspectId})
      && r.store.(suspects := s.suspects) == s
  {
    if sess.None? then Step(s, LoginRequired)
    else if suspectId in s.suspects && OwnsCase(s, sess.value, s.suspects[suspectId].caseId) then
      Step(s.(suspects := s.suspects - {suspectId}), Done)
    else Step(s, AccessDenied)
  }

  lemma DeleteSuspectPreservesValid(s: Store, sess: Option<Session>, suspectId: int)
    requires Valid(s)
    ensures Valid(DeleteSuspect(s, sess, suspectId).store)
  {
  }
}

=== FILE: text.dfy ===
/** The string handling the request handlers apply to form input: Python's
    `str.strip()`, lower-casing, and the byte length of the UTF-8 encoding. */
module Text {

  /** The characters for which Python's `str.isspace()` holds; `strip()` with
      no argument removes exactly these from both ends. */
  predicate IsSpace(c: char)
  {
    var n := c as int;
    || n == 0x20 || (0x09 <= n <= 0x0D) || (0x1C <= n <= 0x1F)
    || n == 0x85 || n == 0xA0 || n == 0x1680
    || (0x2000 <= n <= 0x200A)
    || n == 0x2028 || n == 0x2029 || n == 0x202F || n == 0x205F || n == 0x3000
  }

  /** Python's `s.strip()`: white space is removed from both ends, so the
      result neither starts nor ends with white space. */
  function Trim(s: string): (r: string)
    ensures |r| <= |s|
    ensures r == [] || (!IsSpace(r[0]) && !IsSpace(r[|r| - 1]))
  {
    if |s| > 0 && IsSpace(s[0]) then Trim(s[1..])
    else if |s| > 0 && IsSpace(s[|s| - 1]) then Trim(s[..|s| - 1])
    else s
  }

  /** `r` is `s[i..j]` and everything outside that slice is white space. */
  ghost predicate PaddedInfix(s: string, r: string, i: int, j: int)
  {
    && 0 <= i <= j <= |s|
    && r == s[i..j]
    && (forall k :: 0 <= k < i ==> IsSpace(s[k]))
    && (forall k :: j <= k < |s| ==> IsSpace(s[k]))
  }

  /** One more white-space character in front keeps the padding property. */
  lemma PaddedInfixLeading(s: string, r: string, i: int, j: int)
    requires |s| > 0 && IsSpace(s[0])
    requires PaddedInfix(s[1..], r, i, j)
    ensures PaddedInfix(s, r, i + 1, j + 1)
  {
  }

  /** One more white-space character at the end keeps the padding property. */
  lemma PaddedInfixTrailing(s: string, r: string, i: int, j: int)
    requires |s| > 0 && IsSpace(s[|s| - 1])
    requires PaddedInfix(s[..|s| - 1], r, i, j)
    ensures PaddedInfix(s, r, i, j)
  {
  }

  /** What `strip()` removes is white space and nothing else: the result is
      the slice of `s` between the returned offsets, and every character
      outside that slice is white space. */
  lemma {:induction false} TrimIsInfix(s: string) returns (i: int, j: int)
    ensures PaddedInfix(s, Trim(s), i, j)
  {
    if |s| > 0 && IsSpace(s[0]) {
      var i', j' := TrimIsInfix(s[1..]);
      PaddedInfixLeading(s, Trim(s), i', j');
      i, j := i' + 1, j' + 1;
    } else if |s| > 0 && IsSpace(s[|s| - 1]) {
      i, j := TrimIsInfix(s[..|s| - 1]);
      PaddedInfixTrailing(s, Trim(s), i, j);
    } else {
      i, j := 0, |s|;
    }
  }

  /** A string that neither starts nor ends with white space is its own trim. */
  lemma TrimKeepsTrimmed(s: string)
    requires s == [] || (!IsSpace(s[0]) && !IsSpace(s[|s| - 1]))
    ensures Trim(s) == s
  {
  }

  /** Trimming twice is trimming once. */
  lemma TrimIdempotent(s: string)
    ensures Trim(Trim(s)) == Trim(s)
  {
    TrimKeepsTrimmed(Trim(s));
  }

  /** A string made only of white space trims to the empty string. */
  lemma {:induction false} TrimBlank(s: string)
    requires forall i :: 0 <= i < |s| ==> IsSpace(s[i])
    ensures Trim(s) == []
  {
    if s != [] {
      TrimBlank(s[1..]);
    }
  }

  /** Lower-cases one ASCII letter; every other character is unchanged. */
  function LowerChar(c: char): (d: char)
    ensures 'A' <= c <= 'Z' ==> d as int == c as int + 32
    ensures !('A' <= c <= 'Z') ==> d == c
  {
    if 'A' <= c <= 'Z' then (c as int + 32) as char else c
  }

  /** The character-by-character lower-casing of `s`. */
  function ToLower(s: string): (r: string)
    ensures |r| == |s|
    ensures forall i :: 0 <= i < |s| ==> r[i] == LowerChar(s[i])
  {
    if s == [] then [] else [LowerChar(s[0])] + ToLower(s[1..])
  }

  /** No ASCII capital letter occurs in `s`. */
  predicate HasNoCapital(s: string)
  {
    forall i :: 0 <= i < |s| ==> !('A' <= s[i] <= 'Z')
  }

  /** Lower-casing leaves no capital behind and fixes strings that have none. */
  lemma ToLowerSpec(s: string)
    ensures HasNoCapital(ToLower(s))
    ensures HasNoCapital(s) ==> ToLower(s) == s
  {
  }

  /** The normal form of a username: `username.strip().lower()`. */
  function NormalizeUsername(u: string): (r: string)
    ensures |r| <= |u|
    ensures HasNoCapital(r)
    ensures r == [] || (!IsSpace(r[0]) && !IsSpace(r[|r| - 1]))
  {
    ToLower(Trim(u))
  }

  /** Normalising a username that is already normal changes nothing, so a
      stored username looks itself up. */
  lemma {:induction false} NormalizeIdempotent(u: string)
    ensures NormalizeUsername(NormalizeUsername(u)) == NormalizeUsername(u)
  {
    var n := NormalizeUsername(u);
    TrimKeepsTrimmed(n);
    ToLowerSpec(n);
  }

  /** The number of bytes the UTF-8 encoding of `c` takes. */
  function Utf8Width(c: char): (n: int)
    ensures 1 <= n <= 4
    ensures n == 1 <==> c as int < 0x80
  {
    if c as int < 0x80 then 1
    else if c as int < 0x800 then 2
    else if c as int < 0x1_0000 then 3
    else 4
  }

  /** The length of `s.encode('utf-8')`: at least one and at most four bytes
      per character. */
  function Utf8Length(s: string): (n: nat)
    ensures |s| <= n <= 4 * |s|
  {
    if s == [] then 0 else Utf8Width(s[0]) + Utf8Length(s[1..])
  }

  /** An ASCII string encodes to exactly one byte per character. */
  lemma {:induction false} Utf8LengthAscii(s: string)
    requires forall i :: 0 <= i < |s| ==> s[i] as int < 0x80
    ensures Utf8Length(s) == |s|
  {
    if s != [] {
      Utf8LengthAscii(s[1..]);
    }
  }

  /** A string with a character outside ASCII encodes to more bytes than it
      has characters. */
  lemma {:induction false} Utf8LengthNonAscii(s: string, k: nat)
    requires k < |s| && s[k] as int >= 0x80
    ensures Utf8Length(s) > |s|
  {
    if k > 0 {
      Utf8LengthNonAscii(s[1..], k - 1);
    }
  }
}

=== FILE: wrappers.dfy ===
/** The optional value used for nullable columns, optional form fields and
    the session, which is either absent or carries a logged-in detective. */
module Wrappers {

  datatype Option<+T> = None | Some(value: T) {

    /** The carried value, or `default` when there is none. */
    function GetOr(default: T): T
    {
      match this
      case Some(v) => v
      case None => default
    }
  }
}
